=== FILE: README.md ===
# Fastly Compute MCP server: request handler model

A Dafny model of the request handler in `main.go` of the Fastly Compute MCP
server sample. The handler is the `fsthttp.ServeFunc` closure. It serves the
Model Context Protocol over two transports:

- **Streamable HTTP** (revision 2025-03-26) under `/mcp`. POST carries
  JSON-RPC messages and is guarded by an `Mcp-Session-Id` session. DELETE
  ends a session. Any other method gets a fixed reply.
- **Legacy HTTP+SSE** through the GRIP intermediary (Fastly Fanout).
  - A GET under `/sse` is held open as an event stream on a per-session
    channel.
  - A POST under `/messages?sessionId=…` runs the engine and sends a
    publish request that carries its reply, as an SSE `message` event, to
    that channel.

One request is a pure function,
`Router.Handle(request, store, outcomes) -> Exchange(store', actions)`.

- `store` is the session store: Fastly's `simple` cache, as a map from
  session id to seconds of time-to-live left.
- `outcomes` holds everything the handler learns from code outside the
  model:
  - the MCP engine's run on the body (which hooks fired, and the JSON reply
    or nil);
  - the 16 random bytes of a new uuid;
  - whether the cache lookup, insert and purge fail;
  - the result of `url.ParseQuery`;
  - how far the publish call got;
  - `FASTLY_SERVICE_ID`.
- `actions` is the ordered list of writes to the response writer
  (`SetHeader`, `WriteStatus`, `Body`) and of outward effects (`Publish`,
  `Handoff`). An ordered list is needed because this handler keeps writing
  after it has written an error status.

`Http.Sent` reads an action list the way a Go response writer does:

- the first status written is the one sent;
- a body write before any status sends 200;
- headers set after that point are not sent;
- body writes are appended.

`fsthttp`'s writer is not part of this model; it is assumed to behave like
`net/http`'s. The headers of a `Response` are the ones the handler set;
headers the server adds itself are not modelled.

Modules, in dependency order:

- `Base`: options, line-break and search helpers.
- `Sse`: the event-stream parser of section 9.2 (Server-sent events) of the
  WHATWG HTML Living Standard. It is the reference the frames are checked
  against.
- `GoFmt`: Go's `fmt` verb scanner called with no operands. It is needed for
  the finding below.
- `Uuid`: canonical text of a UUID.
- `SessionStore`: the cache as a session store.
- `Envelope`: the GRIP records at `main.go:25-44` and the SSE frames.
- `Http`: requests, actions, `Sent`.
- `External`: the outcomes of foreign calls.
- `Streamable`: `/mcp`.
- `Legacy`: `/sse` and `/messages`.
- `Router`: the dispatch.
- `Sessions`: properties spanning several requests.

### Behaviour the model keeps as the code has it

In several places `main.go` behaves in ways a reader of its code, or of
the Streamable HTTP transport in the MCP specification (revision
2025-03-26), would not expect. The model follows `main.go`:

- **A rejected session does not stop the request.** The `return` in the
  before-any hook (`main.go:100`, `main.go:106`) leaves only the hook. The
  engine still dispatches the message. The handler then sets
  `Content-Type`, calls `WriteHeader(200)` (ignored, because 400 or 404 was
  already sent) and writes the JSON reply after "Bad request" or
  "Not found".
  - The model states the first status written and the full body
    (`Streamable.MissingSessionRejected`,
    `Streamable.UnknownSessionNotFound`).
  - `Streamable.PostGuarded` is the handler the hook's `return` evidently
    aims at, and what the transport asks for: a request without a session
    id is answered 400 and one with an unknown id 404, and nothing else.
    `Streamable.RejectedPostStillAnswers` relates the two. This is the
    first row under "## Findings".
- **A notification on `/mcp` is not answered with an empty body.** The
  engine's nil reply marshals to `null`, and that is the body.
- **DELETE without a session header still purges.** It writes 400 and then
  still calls `Purge` on the empty key. If that purge fails, the 405 write
  is ignored, but "Not allowed" is appended to the body.
- **The 202 body ends in a newline.** `json.Encoder.Encode` appends one.
- **A failed read of the publish response still gets a body.** The handler
  writes "Failed to read body." with no status, so it is sent with an
  implicit 200.
- **`/sse` trusts any `Grip-Sig`.** `main.go:162` only checks that the
  header is non-empty and never verifies the signature, so any client that
  sets it gets the hold reply. `Legacy.Subscribe` keeps that test.
- **An absent key is not told apart on DELETE.** `main.go:150` only tests
  the error that `simple.Purge` returns, so whether the key existed makes
  no difference to the reply. A successful purge of an absent key leaves
  the store unchanged (`SessionStore.PurgeIdempotent`).

## Model

| member | source | states |
|---|---|---|
| Router.RouteOf | main.go:90-190 | the route is a total function of path and method: `/mcp` prefix with any method, `/sse` prefix only with GET, `/messages` prefix only with POST, each an if-and-only-if, so the branch order never matters |
| Router.Handle | main.go:88-254 | only `/mcp` can change the store; an unrouted request writes nothing; no session other than the one named in the header is removed, and none other than the newly minted one is added |
| Streamable.SessionCheck | main.go:94-111 | the before-any hook writes nothing exactly when the method is `initialize` or the header names a session the cache lookup finds; an empty header writes 400 "Bad request\n"; an unknown id, or any lookup error, writes 404 "Not found\n" |
| Streamable.CreateSession | main.go:112-126 | a successful insert adds the new id to the store and sets `Mcp-Session-Id` to it; a failed insert leaves the store as it was and writes 500 |
| Streamable.RunHooks | main.go:93-126 | the hooks add at most the new session id and never alter or remove an existing entry |
| Streamable.JsonReply | main.go:140-144 | the tail of a POST sends 200 with JSON content type and the marshalled reply (`null` for a nil reply) |
| Streamable.Post | main.go:92-144 | a failed body read is answered 400 "Failed to read body."; otherwise the writes always end with the JSON reply; the store gains at most the new id and keeps every existing entry |
| Streamable.Delete | main.go:145-153 | an empty header writes 400 first; a failed purge writes 405 "Not allowed" and leaves the store; a successful purge with a header writes nothing and removes exactly that key |
| Streamable.Unsupported | main.go:154-156 | any other method on `/mcp` sends 200 "sorry - not supported request atm" and leaves the store |
| Streamable.Serve | main.go:92-157 | whatever the method, `/mcp` keeps every session except the one named in the header, and adds none except the newly minted one |
| Streamable.PlainAnswer | main.go:134-144 | when the hooks wrote nothing and stored nothing, the response is 200 with the JSON reply |
| Streamable.UndispatchedAnswered | main.go:134-144 | a message the engine never dispatched is answered 200 with its reply, without a session check, and the store is unchanged |
| Streamable.LiveSessionAnswered | main.go:94-144 | a non-initialize request naming a session the lookup finds is answered 200 with the reply, store unchanged |
| Streamable.CheckThenReply | main.go:94-144 | after a failed session check the first status is the check's, and the body is the check's text followed by the JSON reply |
| Streamable.MissingSessionRejected | main.go:95-100 | an empty session header gives first status 400 whatever the store holds, store unchanged; the response is 400 with "Bad request\n" followed by the reply |
| Streamable.UnknownSessionNotFound | main.go:102-106 | a header naming a session the lookup does not find (absent, or the read failed) gives first status 404, store unchanged; the response is 404 with "Not found\n" followed by the reply |
| Streamable.InitializeCreatesSession | main.go:112-125 | a successful `initialize` leaves the new id live with a 3-minute time-to-live and sends 200 with that id in `Mcp-Session-Id` and the JSON content type |
| Streamable.InitializeInsertFails | main.go:120-122 | a failed insert on `initialize` sends 500 and stores nothing |
| Streamable.PostGuarded | main.go:97-106 | the short-circuiting handler: a rejected request is answered with the rejection alone, 400 or 404, and any other request exactly as `Post` answers it |
| Streamable.RejectedPostStillAnswers | main.go:97-144 | as written, a rejected request's body is the rejection text followed by the engine's JSON reply |
| Streamable.ReplyBodyAsWritten | main.go:144 | writing the reply through `Fprintf` as a format string leaves it unchanged when it contains no `%` |
| Streamable.PercentReplyMangled | main.go:144 | a reply containing `%"` is sent with `%!"(MISSING)` in its place, so the body differs from the reply |
| GoFmt.PlainFormat | main.go:144 | a format string without `%` prints as itself |
| GoFmt.PercentBeforeQuote | main.go:144 | in a format string without other `%`, a `%` followed by a quote prints as `%!"(MISSING)` and everything else is copied |
| SessionStore.Create | main.go:113-119 | GetOrSet: the key is live afterwards; an absent key gets the 3-minute TTL; a present one leaves the store as it was; no other key changes |
| SessionStore.Purge | main.go:150 | the key is gone afterwards; every other entry is kept unchanged |
| SessionStore.Advance | main.go:117 | after `elapsed` seconds an entry survives exactly when its TTL exceeds `elapsed`, with `elapsed` taken off |
| SessionStore.CreatedSessionLifetime | main.go:117 | a new session is live exactly while fewer than 180 seconds have passed |
| SessionStore.AdvanceAdds | main.go:117 | waiting `a` then `b` seconds is the same as waiting `a + b` seconds |
| SessionStore.PurgeIdempotent | main.go:150 | purging twice is the same as purging once |
| SessionStore.PurgedStaysGone | main.go:150 | a purged session does not come back with time |
| External.NewSessionId | main.go:113 | a minted session id is non-empty and has no line breaks |
| Uuid.Text | main.go:161 | `uuid.New().String()` is 36 characters: lower-case hex with dashes at 8, 13, 18 and 23 |
| Http.Error | main.go:121 | `fsthttp.Error` writes the given status first and the message with a newline as body |
| Http.JsonResponse | main.go:247-249 | JSON content type, then the status, then the JSON; the response is sent with that header |
| Envelope.SingleMessage | main.go:212-223 | the envelope has one item, addressed to the channel; for a reply without raw line breaks, a reader of its `http-stream` content sees exactly one `message` event carrying the reply |
| Envelope.EndpointFrameParses | main.go:174 | a reader of the subscribe body sees exactly one `endpoint` event whose data is `/messages?sessionId=<id>` |
| Envelope.MessageFrameParses | main.go:218 | for a reply without raw line breaks, a reader of a published frame sees exactly one `message` event carrying the reply |
| Legacy.HoldReply | main.go:167-175 | the hold reply sets the six hold headers in order and sends 200 with the endpoint frame; it publishes nothing |
| Legacy.Subscribe | main.go:159-188 | without `Grip-Sig` the one action is the hand-off to backend `self`, so nothing is written; a signed request for another `/sse` path gets 404 "No such endpoint\n"; nothing is published |
| Legacy.HoldSent | main.go:164-175 | a signed GET of `/sse` sends 200 with the six hold headers for the new session and the endpoint frame as body |
| Legacy.HoldHeadersApplied | main.go:168-173 | setting the hold headers in order yields the six-entry header map |
| Legacy.HeldStreamAnnouncesChannel | main.go:161-175 | a signed GET of `/sse` sends 200 with `Grip-Hold: stream`, and the endpoint event it starts with names the same session as `Grip-Channel` |
| Legacy.Deliver | main.go:210-250 | a publish request carrying one envelope for the channel is sent (attempted) unless it could not be built; 202 is written, after the publish, exactly when the request was sent and its response body read, whatever status the publish API returned; a failed read gives the read-failure text with an implicit 200 |
| Legacy.PublishMessage | main.go:190-253 | no session parameter or a nil reply writes nothing and sends no publish request; a failed body read writes 400; at most one publish request is sent |
| Legacy.ReplyPublished | main.go:192-249 | with a session parameter and a reply, exactly one publish request addressed to that channel is sent (attempted), carrying the reply as a `message` event when the reply has no raw line breaks; 202 with the reply is sent exactly when the publish request was sent and its response body read, whatever status the API returned |
| Sessions.UseAgainst | main.go:94-144 | a request presenting a session is answered 200 with the reply when the lookup finds it, and gets 404 first when it does not; the store is unchanged |
| Sessions.InitializeThenUse | main.go:102-144 | the id an `initialize` hands out is accepted by the next request that presents it, unless that request's cache read fails, which gets 404 first |
| Sessions.DeleteThenUse | main.go:102-153 | after a successful DELETE of a session, presenting its id gets 404 first |
| Sessions.SessionExpires | main.go:102-119 | a new session is accepted while fewer than 3 minutes have passed and the cache read succeeds, and gets 404 first afterwards |
| Sessions.SubscribedChannel | main.go:159-175 | through the handler, a signed GET of `/sse` holds the stream on the new session's channel and leaves the store |
| Sessions.PublishedToSession | main.go:190-223 | through the handler, a `/messages` POST sends (attempts) one publish request addressed to the session's channel and leaves the store |
| Sessions.SubscribeThenPublish | main.go:159-223 | the publish request a later `/messages` POST for the session sends is addressed to the channel the held stream is bound to, and carries the reply as a `message` event when the reply has no raw line breaks |

## Left out

- Logging: `fmt.Println`, `fmt.Printf` and `log.Printf` print to the log
  and do not reach the response.
- The `GetLatestGeneratedFastlyVcl` tool and `NewMCPServer`
  (`main.go:46-82`): these are foreign API calls with a placeholder token.
- The MCP engine (mcp-go `HandleMessage` and its hook dispatch) is a
  parameter. The parameter gives, for each body, the hooks it fired and
  its reply.
  - JSON unmarshalling of the body (`main.go:134-137`) happens inside that
    parameter.
  - JSON marshalling of the reply is taken to be its text.
- `url.ParseQuery` is a parameter. Only the first `sessionId` value is read
  from its result.
- `uuid.New` is a parameter: the 16 bytes the id is printed from. The
  version and variant bits are part of that parameter.
- Uuid.Text: the model does not state that two requests mint different
  ids. Collisions are excluded by randomness, which is outside the model.
- The cache entry's body (an empty string) and `rc.Close` are left out: no
  behaviour depends on them.
- Expiry is modelled only as an explicit `SessionStore.Advance` step.
- The store stands for what `simple.Get` would find. A lookup error is an
  outcome (`lookupFails`) and gives 404. An entry the cache evicts before
  its time-to-live ends shows up only as absence, so the cross-request
  lemmas (`Sessions.InitializeThenUse`, `Sessions.SessionExpires`) assume
  a cache that keeps its entries until they expire.
- Publish API status: `main.go:236-248` never reads the status of the
  publish response, so a rejected publish (a 401 for the placeholder key,
  say) is still answered 202. The model does not carry that status.
- Raw line breaks in replies: the reply text is `json.Marshal` output,
  which escapes CR and LF inside strings and never holds a raw line break.
  The frame lemmas (`Envelope.SingleMessage`, `Envelope.MessageFrameParses`,
  `Legacy.ReplyPublished`, `Sessions.SubscribeThenPublish`) assume this:
  for a text with a raw LF, such as `a` LF `b`, a reader would see the
  message `a` and a stray line `b`.
- Server-added headers: `net/http` would add a sniffed `Content-Type` to
  replies that set none (the 400, 404 and "Failed to read body." replies)
  along with `Date` and `Content-Length`. `Http.Sent` reports only the
  headers the handler set.
- The publish call is a `Publish` action. Its outcome is a parameter.
  - The action records that the request was attempted, and is there even
    when sending fails (`SendFailed`). Delivery into a held stream is not
    modelled: a failed send, or a publish the API rejects, delivers
    nothing, and nothing in `main.go` orders a `/sse` subscribe before the
    `/messages` POST. `Sessions.SubscribeThenPublish` states only where the
    publish request is addressed and what it carries.
  - Its marshalled JSON bytes are left out; the envelope is a datatype.
  - The `fastly` backend name is left out.
  - The `Fastly-Key` header is part of the action.
- `handoff.Fanout` is a `Handoff` action.
- Concurrency: each request is handled on its own. The store is the only
  state shared between requests.
- Header names: `r.Header.Get` folds header names to canonical case; the
  model assumes requests already carry canonical names.
- The response writer: `fsthttp`'s `ResponseWriter` and `fsthttp.Error` are
  not part of this model. They are assumed to behave like `net/http`'s.
  `fsthttp.Error` is taken to write a plain-text content type,
  `X-Content-Type-Options: nosniff`, the status, and the message with a
  newline.
- Legacy.Deliver: when the publish request cannot be built
  (`main.go:229-233`), the code logs `req.URL` of a nil request. In Go that
  dereference panics. The model takes the branch as ending with no writes,
  which is what it evidently intends, and does not model the panic.
- Legacy.PublishMessage: the contract bounds the number of publish
  requests at one. The exact envelope is stated in `Legacy.ReplyPublished` and
  `Legacy.Deliver`.

## Findings

| source | as written | input that shows it | evidently intended | confidence | as-written member | corrected member |
|---|---|---|---|---|---|---|
| main.go:97-106 | the `return` in the before-any hook ends only the hook, so after a 400 or 404 the engine still dispatches the message, any tool still runs, and its JSON reply is appended to the rejection text | a `tools/call` POST under `/mcp` with no `Mcp-Session-Id` is answered 400 with body "Bad request\n" followed by the tool's result | the request ends with the rejection: 400 "Bad request" or 404 "Not found" and nothing more | high, not executed | Streamable.Post | Streamable.PostGuarded |
| main.go:144 | the marshalled reply is passed to `fmt.Fprintf` as the format string, so every `%` in it starts a verb with no operand | a reply `{"p":"5%"}` is sent as `{"p":"5%!"(MISSING)}` | the reply bytes are written verbatim, as `fmt.Fprint` or `w.Write` would | high, not executed | Streamable.ReplyBodyAsWritten | Streamable.Post |

`Streamable.PercentReplyMangled`, with `pre` = `{"p":"5` and `post` = `}`,
exhibits the counterexample. `GoFmt.PercentBeforeQuote` states it for every
such reply. `Streamable.Post` writes the reply verbatim, and every
property of `/mcp` above is stated about that corrected body.

For the first row, `Streamable.RejectedPostStillAnswers` exhibits the
as-written flow: a rejected request still carries the engine's reply.
`Streamable.PostGuarded` ends the request after the rejection and has the
same first status and the same store. `Router.Handle` keeps the hook as
written, because the status a client sees first is the same in both.

=== FILE: base.dfy ===
/** Small definitions shared by every part of the model. */
module Base {

  /** A value that may be absent (Go's nil reply, a missing header value, ...). */
  datatype Option<+T> = None | Some(value: T)

  /** True when `s` holds neither a carriage return nor a line feed. */
  predicate NoLineBreak(s: string) {
    '\r' !in s && '\n' !in s
  }

  /** Index of the first `c` in `s`, or `|s|` when `s` has none. */
  function Find(s: string, c: char): (k: nat)
    ensures k <= |s|
    ensures c !in s[..k]
    ensures k < |s| ==> s[k] == c
  {
    if s == [] then 0
    else if s[0] == c then 0
    else
      var k := 1 + Find(s[1..], c);
      assert s[..k] == [s[0]] + s[1..][..k - 1];
      k
  }

  /** Searching past a prefix that lacks `c` just shifts the answer. */
  lemma {:induction false} FindAfter(a: string, b: string, c: char)
    requires c !in a
    ensures Find(a + b, c) == |a| + Find(b, c)
  {
    if a == [] {
      assert a + b == b;
    } else {
      assert (a + b)[1..] == a[1..] + b;
      FindAfter(a[1..], b, c);
    }
  }
}

=== FILE: envelope.dfy ===
/**
 * The records the handler builds for the GRIP intermediary (Fastly Fanout):
 * the hold instructions of a subscribe reply, and the publish envelope
 * `{items: [{channel, formats: {"http-stream": {content}}}]}` with its
 * event-stream frames.
 */
module Envelope {
  import opened Base
  import Sse

  /** Hold instructions for one subscribe path. */
  datatype GripResponse = GripResponse(contentType: string, gripHold: string, gripChannel: string)

  /** The `http-stream` format of a publish item: text pushed verbatim into held streams. */
  datatype HttpStreamData = HttpStreamData(content: string)

  datatype MessageData = MessageData(httpStream: HttpStreamData)

  datatype PublishItem = PublishItem(channel: string, formats: MessageData)

  datatype PublishData = PublishData(items: seq<PublishItem>)

  /** The path announced to legacy clients for posting their messages. */
  const MessagesPath := "/messages"

  /** The endpoint a held stream announces: the messages path with the session id as query. */
  function EndpointUrl(sessionId: string): string {
    MessagesPath + "?sessionId=" + sessionId
  }

  /** The subscribe paths the intermediary may hold, each with its hold instructions. */
  function GripRoutes(sessionId: string): map<string, GripResponse> {
    map["/sse" := GripResponse("text/event-stream", "stream", sessionId)]
  }

  /** The first bytes of a held stream: an `endpoint` event. */
  function EndpointFrame(sessionId: string): string {
    "event: endpoint\ndata: " + EndpointUrl(sessionId) + "\r\n\r\n"
  }

  /** The frame a reply is published as: a `message` event. */
  function MessageFrame(json: string): string {
    "event: message\ndata: " + json + "\n\n"
  }

  /** The one-item envelope that carries a reply, addressed to the channel of a session. */
  function SingleMessage(channel: string, json: string): (d: PublishData)
    ensures |d.items| == 1 && d.items[0].channel == channel
    ensures NoLineBreak(json) ==> Sse.Events(d.items[0].formats.httpStream.content) == [Sse.Event("message", json)]
  {
    MessageFrameParses(json);
    PublishData([PublishItem(channel, MessageData(HttpStreamData(MessageFrame(json))))])
  }

  /** A client reading the endpoint frame sees one `endpoint` event naming the messages URL of the session. */
  lemma EndpointFrameParses(sessionId: string)
    requires NoLineBreak(sessionId)
    ensures Sse.Events(EndpointFrame(sessionId)) == [Sse.Event("endpoint", EndpointUrl(sessionId))]
  {
    var url := EndpointUrl(sessionId);
    assert NoLineBreak(url) by {
      assert url == "/messages?sessionId=" + sessionId;
    }
    assert EndpointFrame(sessionId) == "event: " + "endpoint" + "\n" + "data: " + url + "\r\n" + "\r\n";
    Sse.SingleEvent("endpoint", url, "\n", "\r\n", "\r\n");
  }

  /**
   * A client reading the frame of a reply sees one `message` event carrying
   * the reply, provided the reply has no raw line break (`json.Marshal`
   * output never has one).
   */
  lemma MessageFrameParses(json: string)
    ensures NoLineBreak(json) ==> Sse.Events(MessageFrame(json)) == [Sse.Event("message", json)]
  {
    if NoLineBreak(json) {
      assert MessageFrame(json) == "event: " + "message" + "\n" + "data: " + json + "\n" + "\n";
      Sse.SingleEvent("message", json, "\n", "\n", "\n");
    }
  }
}

=== FILE: external.dfy ===
/**
 * What the handler learns from code outside this model, given as inputs:
 * the MCP engine (mcp-go's `HandleMessage` on a freshly built server), the
 * random bytes of a new session id, the outcomes of cache and publish calls,
 * `url.ParseQuery`, and the service id from the environment.
 */
module External {
  import opened Base
  import Uuid

  /** An MCP method name, as mcp-go's `mcp.MCPMethod` carries it. */
  type McpMethod = string

  /** `mcp.MethodInitialize`, the one method the session check skips. */
  const MethodInitialize: McpMethod := "initialize"

  /**
   * Which hooks the engine fired while handling one message.
   * NoHook: it never reached a method handler (unparsable message,
   * notification, unknown method).  BeforeAny(m): the before-any hook ran for
   * method m and no after-initialize hook followed.  Initialized: an
   * `initialize` request succeeded, so before-any ran for it and then the
   * after-initialize hook.
   */
  datatype HookTrace = NoHook | BeforeAny(mcpMethod: McpMethod) | Initialized

  /** The engine's run on one request body: hooks fired and the JSON reply (None for Go's nil). */
  datatype EngineRun = EngineRun(hooks: HookTrace, reply: Option<string>)

  /** `url.ParseQuery(rawQuery)`: an error, or each key with its values in order. */
  datatype QueryResult = QueryError | Query(values: map<string, seq<string>>)

  /** How far the publish call got: building the request, sending it, reading its response body. */
  datatype PublishOutcome = NotBuilt | SendFailed | ResponseUnread | Published

  datatype Outcomes = Outcomes(
    engine: string -> EngineRun,
    freshId: Uuid.Bytes16,
    lookupFails: bool,                // simple.Get returned an error
    insertError: Option<string>,      // error from simple.GetOrSet, if any
    purgeFails: bool,                 // simple.Purge returned an error
    parseQuery: string -> QueryResult,
    publish: PublishOutcome,
    serviceId: string)                // FASTLY_SERVICE_ID

  /** The session id the request mints with `uuid.New().String()`. */
  function NewSessionId(o: Outcomes): (id: string)
    ensures id != "" && NoLineBreak(id)
  {
    Uuid.Text(o.freshId)
  }
}

=== FILE: gofmt.dfy ===
/**
 * Go's `fmt.Sprintf` / `fmt.Fprintf` called with a format string and NO
 * operands, as the verb-scanning loop `doPrintf` of Go's fmt package
 * processes it.  Text outside directives is copied; a directive is `%`,
 * flags from `#0+- `, an optional `[n]` operand index, a width (digits or
 * `*`), an optional precision (`.` then `[n]`, digits or `*`), another
 * optional `[n]`, and a verb character.  With no operands every directive
 * except the `%` verb fails and is replaced by one of Go's error markers.
 * Characters stand for runes (the text is taken to be valid UTF-8).
 */
module GoFmt {
  import opened Base

  const Missing := "(MISSING)"
  const BadIndex := "(BADINDEX)"
  const BadWidth := "%!(BADWIDTH)"
  const BadPrec := "%!(BADPREC)"
  const NoVerb := "%!(NOVERB)"

  predicate IsFlag(c: char) {
    c == '#' || c == '0' || c == '+' || c == '-' || c == ' '
  }

  predicate IsDigit(c: char) {
    '0' <= c <= '9'
  }

  /** Go's `tooLarge`: numbers in a directive are capped near one million. */
  predicate TooLarge(n: int) {
    n > 1000000 || n < -1000000
  }

  /** Result of Go's `parsenum`: the number, whether digits were seen, where scanning stopped. */
  datatype Num = Num(value: int, isNum: bool, next: nat)

  function Digits(s: string, i: nat, end: nat, num: int, isNum: bool): (r: Num)
    requires i <= end <= |s|
    ensures i <= r.next <= end
    decreases end - i
  {
    if i < end && IsDigit(s[i]) then
      if TooLarge(num) then Num(0, false, end)
      else Digits(s, i + 1, end, num * 10 + (s[i] as int - '0' as int), true)
    else Num(num, isNum, i)
  }

  /** Go's `parsenum(s, start, end)`. */
  function ParseNum(s: string, start: nat, end: nat): (r: Num)
    requires start <= end <= |s|
    ensures start <= r.next <= end
  {
    if start >= end then Num(0, false, end)
    else Digits(s, start, end, 0, false)
  }

  /** Where the flags of a directive end. */
  function SkipFlags(f: string, i: nat): (j: nat)
    requires i <= |f|
    ensures i <= j <= |f|
    decreases |f| - i
  {
    if i < |f| && IsFlag(f[i]) then SkipFlags(f, i + 1) else i
  }

  /** Go's `parseArgNumber` on `s`, which starts with `[`: how many characters the index takes, and whether it was well formed. */
  datatype Index = Index(width: nat, ok: bool)

  function ParseArgNumber(s: string): (r: Index)
    requires |s| >= 1
    ensures 1 <= r.width <= |s|
  {
    if |s| < 3 then Index(1, false)
    else
      var k := 1 + Find(s[1..], ']');
      if k == |s| then Index(1, false)
      else
        var n := ParseNum(s, 1, k);
        Index(k + 1, n.isNum && n.next == k)
  }

  /** Scanning state inside a directive: position, whether an `[n]` was just read, whether operand numbering is still good. */
  datatype Cursor = Cursor(next: nat, afterIndex: bool, good: bool)

  /** Go's `argNumber` with no operands: any `[n]` is out of range, so it spoils the directive. */
  function ArgNumber(f: string, i: nat, good: bool): (c: Cursor)
    requires i <= |f|
    ensures i <= c.next <= |f|
  {
    if i >= |f| || f[i] != '[' then Cursor(i, false, good)
    else
      var ix := ParseArgNumber(f[i..]);
      Cursor(i + ix.width, ix.ok, false)
  }

  /** The output of one directive, where scanning resumes, and whether formatting stops there. */
  datatype Piece = Piece(text: string, next: nat, stop: bool)

  /** Text produced so far inside a directive, with the cursor. */
  datatype Partial = Partial(text: string, at: Cursor)

  /** Width: `*` (no operand to take it from) or digits. */
  function Width(f: string, a: Cursor): (p: Partial)
    requires a.next <= |f|
    ensures a.next <= p.at.next <= |f|
  {
    if a.next < |f| && f[a.next] == '*' then
      Partial(BadWidth, Cursor(a.next + 1, false, a.good))
    else
      var n := ParseNum(f, a.next, |f|);
      Partial("", Cursor(n.next, a.afterIndex, if a.afterIndex && n.isNum then false else a.good))
  }

  /** Precision: only when a `.` is followed by at least one more character. */
  function Precision(f: string, a: Cursor): (p: Partial)
    requires a.next <= |f|
    ensures a.next <= p.at.next <= |f|
  {
    if a.next + 1 < |f| && f[a.next] == '.' then
      var b := ArgNumber(f, a.next + 1, if a.afterIndex then false else a.good);
      if b.next < |f| && f[b.next] == '*' then
        Partial(BadPrec, Cursor(b.next + 1, false, b.good))
      else
        var n := ParseNum(f, b.next, |f|);
        Partial("", Cursor(n.next, b.afterIndex, b.good))
    else Partial("", a)
  }

  /** One directive, scanned from just after its `%`. */
  function Directive(f: string, i: nat): (p: Piece)
    requires i <= |f|
    ensures i <= p.next <= |f|
  {
    var a := ArgNumber(f, SkipFlags(f, i), true);
    var w := Width(f, a);
    var pr := Precision(f, w.at);
    var c := if pr.at.afterIndex then pr.at else ArgNumber(f, pr.at.next, pr.at.good);
    var prefix := w.text + pr.text;
    if c.next >= |f| then Piece(prefix + NoVerb, |f|, true)
    else
      var verb := f[c.next];
      var out :=
        if verb == '%' then "%"
        else if !c.good then "%!" + [verb] + BadIndex
        else "%!" + [verb] + Missing;
      Piece(prefix + out, c.next + 1, false)
  }

  /** Output for the format text `s`. */
  function Scan(s: string): string
    decreases |s|
  {
    if s == [] then ""
    else if s[0] != '%' then [s[0]] + Scan(s[1..])
    else
      var p := Directive(s, 1);
      if p.stop then p.text else p.text + Scan(s[p.next..])
  }

  /** `fmt.Sprintf(format)` with no operands. */
  function Sprintf(format: string): string {
    Scan(format)
  }

  /** Text without `%` is copied ahead of whatever follows it. */
  lemma {:induction false} ScanPlain(a: string, b: string)
    requires '%' !in a
    ensures Scan(a + b) == a + Scan(b)
  {
    if a == [] {
      assert a + b == b;
    } else {
      assert (a + b)[0] == a[0];
      assert (a + b)[1..] == a[1..] + b;
      ScanPlain(a[1..], b);
    }
  }

  /** Text without `%` comes out unchanged. */
  lemma PlainFormat(format: string)
    requires '%' !in format
    ensures Sprintf(format) == format
  {
    ScanPlain(format, "");
    assert format + "" == format;
  }

  /** A `%` directly followed by a quote is a verb with no operand: it prints `%!"(MISSING)`. */
  lemma PercentQuoteDirective(f: string, i: nat)
    requires i < |f| && f[i] == '"'
    ensures Directive(f, i) == Piece("%!\"(MISSING)", i + 1, false)
  {
    assert SkipFlags(f, i) == i;
    var a := Cursor(i, false, true);
    assert ArgNumber(f, i, true) == a;
    assert ParseNum(f, i, |f|) == Num(0, false, i);
    assert Width(f, a) == Partial("", a);
    assert Precision(f, a) == Partial("", a);
    assert "%!" + ['"'] + Missing == "%!\"(MISSING)";
  }

  /** In text without other `%`, a `%"` is replaced by `%!"(MISSING)`; the rest is copied. */
  lemma PercentBeforeQuote(pre: string, post: string)
    requires '%' !in pre && '%' !in post
    ensures Sprintf(pre + "%\"" + post) == pre + "%!\"(MISSING)" + post
  {
    var s := "%\"" + post;
    assert pre + "%\"" + post == pre + s;
    ScanPlain(pre, s);
    PercentQuoteDirective(s, 1);
    assert s[2..] == post;
    PlainFormat(post);
    assert Scan(s) == "%!\"(MISSING)" + post;
  }
}

=== FILE: http.dfy ===
/**
 * Requests, the writes a handler makes to its `fsthttp.ResponseWriter`, and
 * the response those writes amount to.
 *
 * A handler's reply is modelled as the ordered list of its writes, because
 * the handler can write a status and still go on writing.  `Sent` reads such a
 * list the way a Go response writer does: the first status written is the one
 * sent, a body write before any status sends 200, header changes after that
 * point are not sent, and every body write is appended.
 */
module Http {
  import opened Base
  import Envelope
  import SessionStore

  const StatusOK := 200
  const StatusAccepted := 202
  const StatusBadRequest := 400
  const StatusNotFound := 404
  const StatusMethodNotAllowed := 405
  const StatusInternalServerError := 500

  /**
   * An inbound request.  Header names are in Go's canonical form;
   * `body` is None when reading the body failed.
   */
  datatype Request = Request(
    httpMethod: string,
    path: string,
    rawQuery: string,
    headers: map<string, string>,
    body: Option<string>)

  /** `r.Header.Get(name)`: the value, or "" when the header is absent. */
  function Header(r: Request, name: string): (v: string)
    ensures name !in r.headers ==> v == ""
  {
    if name in r.headers then r.headers[name] else ""
  }

  /** One step of a handler's reply, or an outward effect it performs. */
  datatype Action =
    | SetHeader(name: string, value: string)   // w.Header().Set
    | WriteStatus(code: int)                   // w.WriteHeader
    | Body(text: string)                       // a write to w
    | Publish(url: string, apiKey: string, data: Envelope.PublishData)  // a POST to the Fanout publish API, attempted
    | Handoff(backend: string)                 // handoff.Fanout: the intermediary answers instead

  /** What handling one request leaves behind: the session store and the writes made. */
  datatype Exchange = Exchange(store: SessionStore.Store, actions: seq<Action>)

  predicate Commits(a: Action) {
    a.WriteStatus? || a.Body?
  }

  /**
   * The status, the headers the handler set before the reply was committed,
   * and the body.  Headers the server adds on its own are not included.
   */
  datatype Response = Response(status: int, headers: map<string, string>, body: string)

  /** Everything written to the body, in order. */
  function BodyText(acts: seq<Action>): string
  {
    if acts == [] then ""
    else (if acts[0].Body? then acts[0].text else "") + BodyText(acts[1..])
  }

  /** The code of the first status write, if there is one. */
  function FirstStatus(acts: seq<Action>): (r: Option<int>)
    ensures r.None? <==> forall i :: 0 <= i < |acts| ==> !acts[i].WriteStatus?
    ensures r.Some? ==> exists i :: 0 <= i < |acts| && acts[i] == WriteStatus(r.value)
                          && forall j :: 0 <= j < i ==> !acts[j].WriteStatus?
  {
    if acts == [] then None
    else if acts[0].WriteStatus? then Some(acts[0].code)
    else
      var r := FirstStatus(acts[1..]);
      if r.Some? then
        ghost var i :| 0 <= i < |acts[1..]| && acts[1..][i] == WriteStatus(r.value)
                       && forall j :: 0 <= j < i ==> !acts[1..][j].WriteStatus?;
        assert acts[i + 1] == WriteStatus(r.value);
        r
      else r
  }

  /** The response that `acts` sends, given the headers set so far; None while nothing is committed. */
  function SentFrom(acts: seq<Action>, headers: map<string, string>): (r: Option<Response>)
    ensures r.None? <==> forall i :: 0 <= i < |acts| ==> !Commits(acts[i])
    ensures r.Some? ==> r.value.body == BodyText(acts)
    ensures r.Some? && acts != [] && acts[0].WriteStatus? ==> r.value.status == acts[0].code
  {
    if acts == [] then None
    else if Commits(acts[0]) then
      Some(Response(if acts[0].WriteStatus? then acts[0].code else StatusOK, headers, BodyText(acts)))
    else
      NoCommitAfterFirst(acts);
      assert BodyText(acts) == "" + BodyText(acts[1..]);
      SentFrom(acts[1..], if acts[0].SetHeader? then headers[acts[0].name := acts[0].value] else headers)
  }

  /** When the first action does not commit, whether any does is decided by the rest. */
  lemma NoCommitAfterFirst(acts: seq<Action>)
    requires acts != [] && !Commits(acts[0])
    ensures (forall i :: 0 <= i < |acts| ==> !Commits(acts[i]))
            <==> (forall i :: 0 <= i < |acts[1..]| ==> !Commits(acts[1..][i]))
  {
    if forall i :: 0 <= i < |acts[1..]| ==> !Commits(acts[1..][i]) {
      forall i | 0 <= i < |acts|
        ensures !Commits(acts[i])
      {
        if i > 0 {
          assert acts[i] == acts[1..][i - 1];
        }
      }
    }
  }

  function Sent(acts: seq<Action>): Option<Response> {
    SentFrom(acts, map[])
  }

  lemma {:induction false} BodyTextAppend(a: seq<Action>, b: seq<Action>)
    ensures BodyText(a + b) == BodyText(a) + BodyText(b)
  {
    if a != [] {
      assert (a + b)[1..] == a[1..] + b;
      BodyTextAppend(a[1..], b);
    } else {
      assert a + b == b;
    }
  }

  /** A status written in `a` stays the first one whatever follows. */
  lemma {:induction false} FirstStatusAppend(a: seq<Action>, b: seq<Action>)
    ensures FirstStatus(a).Some? ==> FirstStatus(a + b) == FirstStatus(a)
    ensures FirstStatus(a).None? ==> FirstStatus(a + b) == FirstStatus(b)
  {
    if a != [] {
      assert (a + b)[0] == a[0];
      assert (a + b)[1..] == a[1..] + b;
      FirstStatusAppend(a[1..], b);
    } else {
      assert a + b == b;
    }
  }

  /** Once `a` has committed a reply, what follows only adds to the body. */
  lemma {:induction false} SentAppend(a: seq<Action>, b: seq<Action>, headers: map<string, string>)
    requires exists i :: 0 <= i < |a| && Commits(a[i])
    ensures SentFrom(a + b, headers).Some?
    ensures SentFrom(a + b, headers).value
         == SentFrom(a, headers).value.(body := SentFrom(a, headers).value.body + BodyText(b))
  {
    BodyTextAppend(a, b);
    assert (a + b)[0] == a[0];
    if !Commits(a[0]) {
      assert (a + b)[1..] == a[1..] + b;
      var h := if a[0].SetHeader? then headers[a[0].name := a[0].value] else headers;
      var i :| 0 <= i < |a| && Commits(a[i]);
      assert Commits(a[1..][i - 1]);
      SentAppend(a[1..], b, h);
    }
  }

  /** A status followed by a plain body. */
  function Reply(code: int, text: string): (acts: seq<Action>)
    ensures FirstStatus(acts) == Some(code) && BodyText(acts) == text
    ensures Sent(acts) == Some(Response(code, map[], text))
  {
    var acts := [WriteStatus(code), Body(text)];
    assert acts[1..] == [Body(text)];
    assert acts[1..][1..] == [];
    assert BodyText(acts[1..]) == text + "";
    assert text + "" == text;
    acts
  }

  /** A JSON content type, then a status and the JSON text. */
  function JsonResponse(code: int, json: string): (acts: seq<Action>)
    ensures |acts| == 3 && acts[0] == SetHeader("Content-Type", "application/json")
    ensures FirstStatus(acts) == Some(code) && BodyText(acts) == json
    ensures Sent(acts) == Some(Response(code, map["Content-Type" := "application/json"], json))
    ensures forall a :: a in acts ==> !a.Publish?
  {
    var tail := Reply(code, json);
    var acts := [SetHeader("Content-Type", "application/json")] + tail;
    assert acts[0].SetHeader? && acts[1..] == tail;
    assert SentFrom(tail, map["Content-Type" := "application/json"]) == Some(Response(code, map["Content-Type" := "application/json"], json));
    acts
  }

  /** Header writes, in order. */
  function SetHeaders(hs: seq<(string, string)>): (acts: seq<Action>)
    ensures FirstStatus(acts) == None
    ensures forall a :: a in acts ==> a.SetHeader?
  {
    if hs == [] then [] else [SetHeader(hs[0].0, hs[0].1)] + SetHeaders(hs[1..])
  }

  /** The headers after setting `hs` in order. */
  function Apply(headers: map<string, string>, hs: seq<(string, string)>): map<string, string>
    decreases |hs|
  {
    if hs == [] then headers else Apply(headers[hs[0].0 := hs[0].1], hs[1..])
  }

  /** Header writes and then a body write send status 200 with those headers and that body. */
  lemma {:induction false} HeadersThenBody(hs: seq<(string, string)>, text: string, headers: map<string, string>)
    ensures SentFrom(SetHeaders(hs) + [Body(text)], headers) == Some(Response(StatusOK, Apply(headers, hs), text))
  {
    if hs == [] {
      assert SetHeaders(hs) + [Body(text)] == [Body(text)];
      assert [Body(text)][1..] == [];
      assert BodyText([Body(text)]) == text + "";
      assert text + "" == text;
      assert Apply(headers, hs) == headers;
    } else {
      var rest := SetHeaders(hs[1..]) + [Body(text)];
      assert SetHeaders(hs) + [Body(text)] == [SetHeader(hs[0].0, hs[0].1)] + rest;
      assert ([SetHeader(hs[0].0, hs[0].1)] + rest)[1..] == rest;
      HeadersThenBody(hs[1..], text, headers[hs[0].0 := hs[0].1]);
    }
  }

  /** The body written when reading a request body fails. */
  const ReadFailure := "Failed to read body.\n"

  /** `fsthttp.Error(w, msg, code)`: a plain-text error reply. */
  function Error(msg: string, code: int): (acts: seq<Action>)
    ensures FirstStatus(acts) == Some(code)
    ensures BodyText(acts) == msg + "\n"
  {
    var tail := [WriteStatus(code), Body(msg + "\n")];
    assert tail[1..] == [Body(msg + "\n")];
    assert [Body(msg + "\n")][1..] == [];
    var acts := [SetHeader("Content-Type", "text/plain; charset=utf-8"), SetHeader("X-Content-Type-Options", "nosniff")] + tail;
    BodyTextAppend([SetHeader("Content-Type", "text/plain; charset=utf-8"), SetHeader("X-Content-Type-Options", "nosniff")], tail);
    assert acts[1..][1..] == tail;
    acts
  }
}

=== FILE: legacy.dfy ===
/**
 * The legacy HTTP+SSE transport, carried over the GRIP intermediary
 * (Fastly Fanout).  A GET under `/sse` that came through the intermediary
 * (it carries `Grip-Sig`) is answered with hold instructions binding the
 * stream to a channel named after a new session id, and an `endpoint` event
 * telling the client where to post.  A GET that did not come through it is
 * handed off to the intermediary.  A POST under `/messages` runs the engine
 * on the body and attempts a publish request carrying the reply, addressed
 * to the channel named by the `sessionId` query parameter; it answers 202
 * with the same reply when the request was sent and its response body read.
 * Neither entry point touches the session store.
 */
module Legacy {
  import opened Base
  import opened Http
  import opened External
  import opened Envelope
  import Sse

  /** The header the intermediary adds to requests it forwards. */
  const SignatureHeader := "Grip-Sig"

  /** The backend the hand-off routes through. */
  const HandoffBackend := "self"

  /** The placeholder API token the publish call carries in `Fastly-Key`. */
  const PublishApiKey := "__PUT_YOUR_FASTLY_API_TOKEN__"

  function PublishUrl(serviceId: string): string {
    "https://api.fastly.com/service/" + serviceId + "/publish/"
  }

  /** The headers a hold reply sets, in the order the handler sets them. */
  function HoldHeaderList(g: GripResponse): seq<(string, string)> {
    [ ("Content-Type", g.contentType),
      ("Grip-Hold", g.gripHold),
      ("Grip-Channel", g.gripChannel),
      ("Cache-Control", "no-cache"),
      ("Connection", "keep-alive"),
      ("Access-Control-Allow-Origin", "*") ]
  }

  /** The hold reply for one subscribe path: headers for the intermediary, then the endpoint event. */
  function HoldReply(g: GripResponse, sessionId: string): (acts: seq<Action>)
    ensures FirstStatus(acts) == None
    ensures forall a :: a in acts ==> !a.Publish?
    ensures Sent(acts) == Some(Response(StatusOK, Apply(map[], HoldHeaderList(g)), EndpointFrame(sessionId)))
  {
    HeadersThenBody(HoldHeaderList(g), EndpointFrame(sessionId), map[]);
    FirstStatusAppend(SetHeaders(HoldHeaderList(g)), [Body(EndpointFrame(sessionId))]);
    SetHeaders(HoldHeaderList(g)) + [Body(EndpointFrame(sessionId))]
  }

  /** GET under `/sse`. */
  function Subscribe(req: Request, o: Outcomes): (acts: seq<Action>)
    ensures |Header(req, SignatureHeader)| == 0 ==> acts == [Handoff(HandoffBackend)] && Sent(acts).None?
    ensures (|Header(req, SignatureHeader)| > 0 && req.path != "/sse")
              ==> Sent(acts) == Some(Response(StatusNotFound, map[], "No such endpoint\n"))
    ensures forall a :: a in acts ==> !a.Publish?
  {
    var sessionId := NewSessionId(o);
    if |Header(req, SignatureHeader)| > 0 then
      var routes := GripRoutes(sessionId);
      if req.path in routes then HoldReply(routes[req.path], sessionId)
      else Reply(StatusNotFound, "No such endpoint\n")
    else [Handoff(HandoffBackend)]
  }

  /** The headers of a held stream, as the client and the intermediary receive them. */
  function HoldHeaders(sessionId: string): map<string, string> {
    map["Content-Type" := "text/event-stream",
        "Grip-Hold" := "stream",
        "Grip-Channel" := sessionId,
        "Cache-Control" := "no-cache",
        "Connection" := "keep-alive",
        "Access-Control-Allow-Origin" := "*"]
  }

  /** Setting the hold headers in order yields `HoldHeaders`. */
  lemma HoldHeadersApplied(id: string)
    ensures Apply(map[], HoldHeaderList(GripResponse("text/event-stream", "stream", id))) == HoldHeaders(id)
  {
    var g := GripResponse("text/event-stream", "stream", id);
    var l := HoldHeaderList(g);
    var h1 := map["Content-Type" := "text/event-stream"];
    var h2 := h1["Grip-Hold" := "stream"];
    var h3 := h2["Grip-Channel" := id];
    var h4 := h3["Cache-Control" := "no-cache"];
    var h5 := h4["Connection" := "keep-alive"];
    var h6 := h5["Access-Control-Allow-Origin" := "*"];
    assert Apply(map[], l) == Apply(h1, l[1..]);
    assert Apply(h1, l[1..]) == Apply(h2, l[2..]) by { assert l[1..][1..] == l[2..]; }
    assert Apply(h2, l[2..]) == Apply(h3, l[3..]) by { assert l[2..][1..] == l[3..]; }
    assert Apply(h3, l[3..]) == Apply(h4, l[4..]) by { assert l[3..][1..] == l[4..]; }
    assert Apply(h4, l[4..]) == Apply(h5, l[5..]) by { assert l[4..][1..] == l[5..]; }
    assert Apply(h5, l[5..]) == Apply(h6, l[6..]) by { assert l[5..][1..] == l[6..]; }
    assert l[6..] == [];
    assert h6 == HoldHeaders(id);
  }

  /** A signed GET of exactly `/sse` is answered with the hold reply for a new session. */
  lemma HoldSent(req: Request, o: Outcomes)
    requires |Header(req, SignatureHeader)| > 0 && req.path == "/sse"
    ensures Sent(Subscribe(req, o)) == Some(Response(StatusOK, HoldHeaders(NewSessionId(o)), EndpointFrame(NewSessionId(o))))
  {
    var id := NewSessionId(o);
    var g := GripResponse("text/event-stream", "stream", id);
    assert GripRoutes(id)[req.path] == g;
    assert Subscribe(req, o) == HoldReply(g, id);
    HoldHeadersApplied(id);
  }

  /**
   * A signed GET of exactly `/sse` is held as a stream on the channel of a new
   * session, and the only event it starts with announces the messages
   * endpoint for that same channel.
   */
  lemma HeldStreamAnnouncesChannel(req: Request, o: Outcomes)
    requires |Header(req, SignatureHeader)| > 0 && req.path == "/sse"
    ensures var r := Sent(Subscribe(req, o));
            && r.Some?
            && r.value.status == StatusOK
            && r.value.headers == HoldHeaders(NewSessionId(o))
            && r.value.headers["Grip-Hold"] == "stream"
            && Sse.Events(r.value.body) == [Sse.Event("endpoint", EndpointUrl(r.value.headers["Grip-Channel"]))]
  {
    HoldSent(req, o);
    HoldBody(NewSessionId(o));
  }

  /** The hold headers name the session's channel, and the body announces that channel's endpoint. */
  lemma HoldBody(id: string)
    requires NoLineBreak(id)
    ensures HoldHeaders(id)["Grip-Hold"] == "stream"
    ensures Sse.Events(EndpointFrame(id)) == [Sse.Event("endpoint", EndpointUrl(HoldHeaders(id)["Grip-Channel"]))]
  {
    assert HoldHeaders(id)["Grip-Channel"] == id;
    EndpointFrameParses(id);
  }

  /** The envelopes a list of actions sends to the publish API. */
  function Publications(acts: seq<Action>): seq<PublishData> {
    if acts == [] then []
    else (if acts[0].Publish? then [acts[0].data] else []) + Publications(acts[1..])
  }

  /** The `sessionId` the query names: the first of its values. */
  function SessionParam(q: QueryResult): Option<string> {
    match q
    case QueryError => None
    case Query(values) =>
      if "sessionId" in values && |values["sessionId"]| > 0 then Some(values["sessionId"][0]) else None
  }

  lemma {:induction false} NoPublications(acts: seq<Action>)
    requires forall a :: a in acts ==> !a.Publish?
    ensures Publications(acts) == []
  {
    if acts != [] {
      assert acts[0] in acts;
      assert forall a :: a in acts[1..] ==> a in acts;
      NoPublications(acts[1..]);
    }
  }

  /**
   * Sending a publish request that carries the reply to `channel`, then
   * answering 202 when the request was sent and its response body read,
   * whatever status the publish API returned.  The `Publish` action records
   * the attempt; whether the message reaches a held stream is not modelled.
   */
  function Deliver(o: Outcomes, channel: string, json: string): (acts: seq<Action>)
    ensures o.publish != NotBuilt ==> Publications(acts) == [SingleMessage(channel, json)]
    ensures o.publish == NotBuilt ==> acts == []
    ensures FirstStatus(acts) == Some(StatusAccepted) <==> o.publish == Published
    ensures FirstStatus(acts).Some? ==> FirstStatus(acts) == Some(StatusAccepted)
    ensures o.publish != NotBuilt ==> acts[0].Publish?
    ensures (o.publish == Published
             ==> Sent(acts) == Some(Response(StatusAccepted, map["Content-Type" := "application/json"], json + "\n")))
    ensures o.publish == ResponseUnread ==> Sent(acts) == Some(Response(StatusOK, map[], ReadFailure))
    ensures o.publish == SendFailed ==> Sent(acts).None?
  {
    var send := Http.Publish(PublishUrl(o.serviceId), PublishApiKey, SingleMessage(channel, json));
    var after := match o.publish
      case NotBuilt => []
      case SendFailed => []
      case ResponseUnread => [Body(ReadFailure)]
      case Published => JsonResponse(StatusAccepted, json + "\n");
    assert [send][1..] == [];
    NoPublications(after);
    FirstStatusAppend([send], after);
    assert ([send] + after)[1..] == after;
    assert SentFrom([send] + after, map[]) == SentFrom(after, map[]);
    assert o.publish == ResponseUnread ==> SentFrom(after, map[]) == Some(Response(StatusOK, map[], ReadFailure)) by {
      if o.publish == ResponseUnread {
        HeadersThenBody([], ReadFailure, map[]);
        assert SetHeaders([]) + [Body(ReadFailure)] == after;
      }
    }
    if o.publish == NotBuilt then [] else [send] + after
  }

  /** POST under `/messages`. */
  function PublishMessage(req: Request, o: Outcomes): (acts: seq<Action>)
    ensures SessionParam(o.parseQuery(req.rawQuery)).None? ==> acts == []
    ensures SessionParam(o.parseQuery(req.rawQuery)).Some? && req.body.None? ==> acts == Reply(StatusBadRequest, ReadFailure)
    ensures req.body.Some? && o.engine(req.body.value).reply.None? ==> acts == []
    ensures |Publications(acts)| <= 1
  {
    match SessionParam(o.parseQuery(req.rawQuery))
    case None => []
    case Some(channel) =>
      match req.body
      case None => Reply(StatusBadRequest, ReadFailure)
      case Some(b) =>
        match o.engine(b).reply
        case None => []
        case Some(json) => Deliver(o, channel, json)
  }

  /**
   * A POST under `/messages` whose query names a session, and whose message
   * the engine answers, attempts exactly one publish request addressed to
   * that session's channel, carrying the reply as a `message` event when the
   * reply has no raw line break; 202 with the same reply follows exactly when
   * the request was sent and its response body read.
   */
  lemma ReplyPublished(req: Request, o: Outcomes, channel: string, b: string, json: string)
    requires SessionParam(o.parseQuery(req.rawQuery)) == Some(channel)
    requires req.body == Some(b) && o.engine(b).reply == Some(json)
    requires o.publish != NotBuilt
    ensures var acts := PublishMessage(req, o);
            && Publications(acts) == [SingleMessage(channel, json)]
            && |Publications(acts)[0].items| == 1
            && Publications(acts)[0].items[0].channel == channel
            && (NoLineBreak(json) ==> Sse.Events(Publications(acts)[0].items[0].formats.httpStream.content)
                                       == [Sse.Event("message", json)])
            && (FirstStatus(acts) == Some(StatusAccepted) <==> o.publish == Published)
            && (o.publish == Published ==> Sent(acts).value.body == json + "\n")
  {
  }
}

=== FILE: router.dfy ===
/**
 * The request handler: dispatch by path prefix and method to the Streamable
 * HTTP transport (`/mcp`, any method), the legacy subscribe (`/sse`, GET) or
 * the legacy publish (`/messages`, POST).  Anything else writes nothing.
 */
module Router {
  import opened Http
  import opened External
  import opened SessionStore
  import Streamable
  import Legacy

  datatype Route = StreamableRoute | SubscribeRoute | PublishRoute | NoRoute

  /** The prefixes do not overlap, so each route is described without reference to the others. */
  function RouteOf(path: string, httpMethod: string): (r: Route)
    ensures r == StreamableRoute <==> "/mcp" <= path
    ensures r == SubscribeRoute <==> "/sse" <= path && httpMethod == "GET"
    ensures r == PublishRoute <==> "/messages" <= path && httpMethod == "POST"
  {
    assert "/mcp" <= path ==> path[1] == 'm';
    assert "/sse" <= path ==> path[1] == 's';
    assert "/messages" <= path ==> path[1] == 'm' && path[2] == 'e';
    if "/mcp" <= path then StreamableRoute
    else if "/sse" <= path && httpMethod == "GET" then SubscribeRoute
    else if "/messages" <= path && httpMethod == "POST" then PublishRoute
    else NoRoute
  }

  /** One request: the store after it and the writes it made. */
  function Handle(req: Request, store: Store, o: Outcomes): (x: Exchange)
    ensures RouteOf(req.path, req.httpMethod) != StreamableRoute ==> x.store == store
    ensures RouteOf(req.path, req.httpMethod) == NoRoute ==> x.actions == []
    ensures forall k :: k in store && k != Header(req, Streamable.SessionHeader) ==> k in x.store && x.store[k] == store[k]
    ensures forall k :: k in x.store && k != NewSessionId(o) ==> k in store
  {
    match RouteOf(req.path, req.httpMethod)
    case StreamableRoute => Streamable.Serve(req, store, o)
    case SubscribeRoute => Exchange(store, Legacy.Subscribe(req, o))
    case PublishRoute => Exchange(store, Legacy.PublishMessage(req, o))
    case NoRoute => Exchange(store, [])
  }
}

=== FILE: sessions.dfy ===
/**
 * Properties that span several requests: the life of a Streamable HTTP
 * session from `initialize` through use, deletion and expiry, and the link a
 * legacy stream's channel makes between subscribe and publish.  Each request
 * goes through the full handler, `Router.Handle`.
 */
module Sessions {
  import opened Base
  import opened Http
  import opened External
  import opened SessionStore
  import opened Router
  import Streamable
  import Legacy
  import Envelope
  import Sse

  predicate McpPost(req: Request) {
    "/mcp" <= req.path && req.httpMethod == "POST"
  }

  /** A POST under `/mcp` whose body the engine dispatches as a non-initialize method. */
  predicate SessionUse(req: Request, o: Outcomes) {
    && McpPost(req)
    && req.body.Some?
    && o.engine(req.body.value).hooks.BeforeAny?
    && o.engine(req.body.value).hooks.mcpMethod != MethodInitialize
  }

  /** A POST under `/mcp` whose body is a successful `initialize`. */
  predicate Initializes(req: Request, o: Outcomes) {
    && McpPost(req)
    && req.body.Some?
    && o.engine(req.body.value).hooks == Initialized
    && o.insertError.None?
  }

  /** The writes of a session use against `store`: 200 with the reply when the key is live, 404 first when it is not. */
  lemma {:induction false} UseAgainst(req: Request, store: Store, o: Outcomes)
    requires SessionUse(req, o) && Header(req, Streamable.SessionHeader) != ""
    ensures Handle(req, store, o).store == store
    ensures (Streamable.Found(store, Header(req, Streamable.SessionHeader), o)
             ==> Sent(Handle(req, store, o).actions)
                 == Some(Response(StatusOK, map["Content-Type" := "application/json"],
                                  Streamable.ReplyJson(o.engine(req.body.value).reply))))
    ensures (!Streamable.Found(store, Header(req, Streamable.SessionHeader), o)
             ==> FirstStatus(Handle(req, store, o).actions) == Some(StatusNotFound))
  {
    var b := req.body.value;
    var m := o.engine(b).hooks.mcpMethod;
    assert Handle(req, store, o) == Streamable.Post(req, store, o);
    if Streamable.Found(store, Header(req, Streamable.SessionHeader), o) {
      Streamable.LiveSessionAnswered(req, store, o, b, m);
    } else {
      Streamable.UnknownSessionNotFound(req, store, o, b, m);
    }
  }

  /**
   * The key `initialize` hands out is accepted by the next request that
   * presents it, unless the cache read for that request fails, which is
   * answered 404 first.
   */
  lemma InitializeThenUse(init: Request, o1: Outcomes, use: Request, o2: Outcomes, store: Store)
    requires Initializes(init, o1)
    requires SessionUse(use, o2)
    requires Header(use, Streamable.SessionHeader) == NewSessionId(o1)
    ensures var s1 := Handle(init, store, o1).store;
            && Handle(use, s1, o2).store == s1
            && (!o2.lookupFails
                ==> Sent(Handle(use, s1, o2).actions)
                    == Some(Response(StatusOK, map["Content-Type" := "application/json"],
                                     Streamable.ReplyJson(o2.engine(use.body.value).reply))))
            && (o2.lookupFails ==> FirstStatus(Handle(use, s1, o2).actions) == Some(StatusNotFound))
  {
    var b := init.body.value;
    assert Handle(init, store, o1) == Streamable.Post(init, store, o1);
    Streamable.InitializeCreatesSession(init, store, o1, b);
    UseAgainst(use, Handle(init, store, o1).store, o2);
  }

  /** Once a session is deleted, presenting its key is answered 404 first. */
  lemma DeleteThenUse(del: Request, o1: Outcomes, use: Request, o2: Outcomes, store: Store)
    requires "/mcp" <= del.path && del.httpMethod == "DELETE"
    requires Header(del, Streamable.SessionHeader) != "" && !o1.purgeFails
    requires SessionUse(use, o2)
    requires Header(use, Streamable.SessionHeader) == Header(del, Streamable.SessionHeader)
    ensures Handle(del, store, o1).actions == []
    ensures var s1 := Handle(del, store, o1).store;
            && Handle(use, s1, o2).store == s1
            && FirstStatus(Handle(use, s1, o2).actions) == Some(StatusNotFound)
  {
    assert Handle(del, store, o1) == Streamable.Delete(del, store, o1);
    UseAgainst(use, Handle(del, store, o1).store, o2);
  }

  /**
   * A new session is accepted for as long as its time-to-live lasts, when
   * the cache read succeeds, and refused with 404 once 3 minutes have passed
   * without the cache being refreshed.
   */
  lemma SessionExpires(init: Request, o1: Outcomes, use: Request, o2: Outcomes, store: Store, elapsed: nat)
    requires Initializes(init, o1) && NewSessionId(o1) !in store
    requires SessionUse(use, o2)
    requires Header(use, Streamable.SessionHeader) == NewSessionId(o1)
    ensures var s1 := Advance(Handle(init, store, o1).store, elapsed);
            && (elapsed < SessionTtlSeconds && !o2.lookupFails ==> Sent(Handle(use, s1, o2).actions).value.status == StatusOK)
            && (elapsed >= SessionTtlSeconds ==> FirstStatus(Handle(use, s1, o2).actions) == Some(StatusNotFound))
  {
    var id := NewSessionId(o1);
    assert Handle(init, store, o1) == Streamable.Post(init, store, o1);
    Streamable.InitializeCreatesSession(init, store, o1, init.body.value);
    CreatedSessionLifetime(store, id, elapsed);
    UseAgainst(use, Advance(Handle(init, store, o1).store, elapsed), o2);
  }

  /** A signed GET of `/sse`, through the handler, holds its stream on the channel named by the new session id. */
  lemma SubscribedChannel(sub: Request, o: Outcomes, store: Store)
    requires sub.httpMethod == "GET" && sub.path == "/sse"
    requires |Header(sub, Legacy.SignatureHeader)| > 0
    ensures Handle(sub, store, o).store == store
    ensures Sent(Handle(sub, store, o).actions).Some?
    ensures Sent(Handle(sub, store, o).actions).value.headers == Legacy.HoldHeaders(NewSessionId(o))
  {
    assert RouteOf(sub.path, sub.httpMethod) == SubscribeRoute;
    assert Handle(sub, store, o) == Exchange(store, Legacy.Subscribe(sub, o));
    Legacy.HeldStreamAnnouncesChannel(sub, o);
  }

  /** A POST under `/messages`, through the handler, attempts one publish request for the reply, addressed to the session's channel. */
  lemma PublishedToSession(post: Request, o: Outcomes, store: Store, channel: string, json: string)
    requires "/messages" <= post.path && post.httpMethod == "POST"
    requires Legacy.SessionParam(o.parseQuery(post.rawQuery)) == Some(channel)
    requires post.body.Some? && o.engine(post.body.value).reply == Some(json)
    requires o.publish != NotBuilt
    ensures Handle(post, store, o).store == store
    ensures Legacy.Publications(Handle(post, store, o).actions) == [Envelope.SingleMessage(channel, json)]
  {
    assert RouteOf(post.path, post.httpMethod) == PublishRoute;
    assert Handle(post, store, o) == Exchange(store, Legacy.PublishMessage(post, o));
    Legacy.ReplyPublished(post, o, channel, post.body.value, json);
  }

  /**
   * The channel a signed GET of `/sse` holds its stream on is the one a later
   * `/messages?sessionId=` POST for that session addresses its publish
   * request to, and that request carries the reply as a `message` event
   * when the reply has no raw line break.
   */
  lemma SubscribeThenPublish(sub: Request, o1: Outcomes, post: Request, o2: Outcomes, store: Store, json: string)
    requires sub.httpMethod == "GET" && sub.path == "/sse"
    requires |Header(sub, Legacy.SignatureHeader)| > 0
    requires "/messages" <= post.path && post.httpMethod == "POST"
    requires Legacy.SessionParam(o2.parseQuery(post.rawQuery)) == Some(NewSessionId(o1))
    requires post.body.Some? && o2.engine(post.body.value).reply == Some(json)
    requires o2.publish != NotBuilt
    ensures Handle(sub, store, o1).store == store && Handle(post, store, o2).store == store
    ensures Sent(Handle(sub, store, o1).actions).Some?
    ensures "Grip-Channel" in Sent(Handle(sub, store, o1).actions).value.headers
    ensures var channel := Sent(Handle(sub, store, o1).actions).value.headers["Grip-Channel"];
            var pubs := Legacy.Publications(Handle(post, store, o2).actions);
            && |pubs| == 1 && |pubs[0].items| == 1
            && pubs[0].items[0].channel == channel
            && (NoLineBreak(json) ==> Sse.Events(pubs[0].items[0].formats.httpStream.content)
                                      == [Sse.Event("message", json)])
  {
    var id := NewSessionId(o1);
    SubscribedChannel(sub, o1, store);
    PublishedToSession(post, o2, store, id, json);
  }
}

=== FILE: sse.dfy ===
/**
 * The reading side of an event stream, as section 9.2 (Server-sent events) of
 * the WHATWG HTML Living Standard interprets it: the stream is cut into lines
 * at CRLF, LF or CR; `field: value` lines fill the event-type and data
 * buffers; a blank line dispatches the buffered event.  Only the `event` and
 * `data` fields matter to this model; `id`, `retry`, unknown fields and
 * comment lines are skipped.  Whatever follows the last terminated line is an
 * incomplete event and is discarded.
 */
module Sse {
  import opened Base

  datatype Event = Event(eventType: string, data: string)

  predicate IsBreak(c: char) { c == '\r' || c == '\n' }

  /** Index of the first CR or LF in `s`, or `|s|` when there is none. */
  function BreakAt(s: string): (k: nat)
    ensures k <= |s|
    ensures NoLineBreak(s[..k])
    ensures k < |s| ==> IsBreak(s[k])
  {
    var cr := Find(s, '\r');
    var lf := Find(s, '\n');
    var k := if cr <= lf then cr else lf;
    assert s[..k] == s[..cr][..k] == s[..lf][..k];
    k
  }

  /** Length of the line terminator that starts at `s[k]` (CRLF counts as one). */
  function TerminatorLength(s: string, k: nat): (n: nat)
    requires k < |s| && IsBreak(s[k])
    ensures 1 <= n <= 2 && k + n <= |s|
  {
    if s[k] == '\r' && k + 1 < |s| && s[k + 1] == '\n' then 2 else 1
  }

  /** The terminated lines of `s`, without their terminators. */
  function Lines(s: string): (ls: seq<string>)
    decreases |s|
  {
    var k := BreakAt(s);
    if k == |s| then []
    else [s[..k]] + Lines(s[k + TerminatorLength(s, k)..])
  }

  /** A field name and its value: split at the first colon, minus one leading space. */
  datatype Field = Field(name: string, value: string)

  function SplitField(line: string): (f: Field)
  {
    var k := Find(line, ':');
    if k == |line| then Field(line, "")
    else
      var v := line[k + 1..];
      Field(line[..k], if v != [] && v[0] == ' ' then v[1..] else v)
  }

  /** Removes the single line feed that the data buffer ends with, if any. */
  function DropFinalLineFeed(d: string): string {
    if d != [] && d[|d| - 1] == '\n' then d[..|d| - 1] else d
  }

  /** The event-type and data buffers a client keeps between lines. */
  datatype Buffers = Buffers(eventType: string, data: string)

  const Empty := Buffers("", "")

  /** The event a blank line dispatches, given the buffers. */
  function Dispatch(b: Buffers): seq<Event> {
    if b.data == [] then []
    else [Event(if b.eventType == [] then "message" else b.eventType, DropFinalLineFeed(b.data))]
  }

  /** What one line does: the events it dispatches and the buffers after it. */
  datatype Step = Step(events: seq<Event>, next: Buffers)

  function Feed(line: string, b: Buffers): Step {
    if line == [] then Step(Dispatch(b), Empty)
    else if line[0] == ':' then Step([], b)
    else
      var f := SplitField(line);
      if f.name == "event" then Step([], b.(eventType := f.value))
      else if f.name == "data" then Step([], b.(data := b.data + f.value + "\n"))
      else Step([], b)
  }

  /** Interprets lines one by one, carrying the buffers. */
  function Interpret(lines: seq<string>, b: Buffers): seq<Event>
    decreases |lines|
  {
    if lines == [] then []
    else
      var step := Feed(lines[0], b);
      step.events + Interpret(lines[1..], step.next)
  }

  /** The events a conforming client dispatches after reading all of `s`. */
  function Events(s: string): seq<Event> {
    Interpret(Lines(s), Empty)
  }

  /** A line without breaks, then LF or CRLF, is split off as the first line. */
  lemma {:induction false} LinesAfter(line: string, terminator: string, rest: string)
    requires NoLineBreak(line)
    requires terminator == "\n" || terminator == "\r\n"
    ensures Lines(line + terminator + rest) == [line] + Lines(rest)
  {
    var s := line + terminator + rest;
    BreakAtLine(line, terminator + rest);
    assert line + terminator + rest == line + (terminator + rest);
    assert BreakAt(s) == |line|;
    assert s[..|line|] == line;
    assert TerminatorLength(s, |line|) == |terminator|;
    assert s[|line| + |terminator|..] == rest;
  }

  lemma BreakAtLine(line: string, rest: string)
    requires NoLineBreak(line)
    ensures BreakAt(line + rest) == |line| + BreakAt(rest)
  {
    FindAfter(line, rest, '\r');
    FindAfter(line, rest, '\n');
  }

  /** `name: value` splits back into the field and its value. */
  lemma FieldOf(name: string, value: string)
    requires ':' !in name
    ensures SplitField(name + ": " + value) == Field(name, value)
  {
    var rest := ": " + value;
    var line := name + rest;
    assert name + ": " + value == line;
    assert rest[0] == ':';
    assert Find(rest, ':') == 0;
    FindAfter(name, rest, ':');
    assert Find(line, ':') == |name|;
    assert line[..|name|] == name;
    var v := line[|name| + 1..];
    assert v == " " + value;
    assert v[1..] == value;
  }

  /** The three lines of a one-event block: `event:`, `data:` and a blank line. */
  lemma BlockLines(l1: string, l2: string, t1: string, t2: string, t3: string)
    requires NoLineBreak(l1) && NoLineBreak(l2)
    requires t1 in {"\n", "\r\n"} && t2 in {"\n", "\r\n"} && t3 in {"\n", "\r\n"}
    ensures Lines(l1 + t1 + l2 + t2 + t3) == [l1, l2, ""]
  {
    LastLines(l2, t2, t3);
    Regroup(l1, t1, l2, t2, t3);
    LinesAfter(l1, t1, l2 + t2 + t3);
  }

  /** The `data:` line and the blank line that end a block. */
  lemma LastLines(l2: string, t2: string, t3: string)
    requires NoLineBreak(l2)
    requires t2 in {"\n", "\r\n"} && t3 in {"\n", "\r\n"}
    ensures Lines(l2 + t2 + t3) == [l2, ""]
  {
    BlankLine(t3);
    LinesAfter(l2, t2, t3);
  }

  /** A lone terminator is one blank line. */
  lemma BlankLine(t: string)
    requires t in {"\n", "\r\n"}
    ensures Lines(t) == [""]
  {
    assert "" + t + "" == t;
    LinesAfter("", t, "");
    assert Lines("") == [];
  }

  lemma Regroup(a: string, b: string, c: string, d: string, e: string)
    ensures a + b + c + d + e == a + b + (c + d + e)
  {
  }

  lemma FeedEvent(value: string, b: Buffers)
    ensures Feed("event: " + value, b) == Step([], b.(eventType := value))
  {
    FieldOf("event", value);
    assert "event" + ": " + value == "event: " + value;
    assert ("event: " + value)[0] == 'e';
  }

  lemma FeedData(value: string, b: Buffers)
    ensures Feed("data: " + value, b) == Step([], b.(data := b.data + value + "\n"))
  {
    FieldOf("data", value);
    assert "data" + ": " + value == "data: " + value;
    assert ("data: " + value)[0] == 'd';
  }

  /** How a conforming client reads the lines of a one-event block. */
  lemma InterpretBlock(eventType: string, data: string)
    requires eventType != []
    ensures Interpret(["event: " + eventType, "data: " + data, ""], Empty) == [Event(eventType, data)]
  {
    var l1 := "event: " + eventType;
    var l2 := "data: " + data;
    var b1 := Buffers(eventType, "");
    FeedEvent(eventType, Empty);
    FeedData(data, b1);
    assert "" + data + "\n" == data + "\n";
    BlankLineDispatches(eventType, data);
    var ls := [l1, l2, ""];
    assert ls[1..] == [l2, ""];
    assert [l2, ""][1..] == [""];
    assert Interpret([l2, ""], b1) == [Event(eventType, data)];
  }

  /** The blank line that ends a block dispatches the buffered event. */
  lemma BlankLineDispatches(eventType: string, data: string)
    requires eventType != []
    ensures Interpret([""], Buffers(eventType, data + "\n")) == [Event(eventType, data)]
  {
    var b := Buffers(eventType, data + "\n");
    assert DropFinalLineFeed(data + "\n") == data;
    assert Feed("", b) == Step([Event(eventType, data)], Empty);
    assert [""][1..] == [];
  }

  /** One `event:` line, one `data:` line and a blank line give one event. */
  lemma SingleEvent(eventType: string, data: string, t1: string, t2: string, t3: string)
    requires NoLineBreak(eventType) && NoLineBreak(data)
    requires eventType != []
    requires t1 in {"\n", "\r\n"} && t2 in {"\n", "\r\n"} && t3 in {"\n", "\r\n"}
    ensures Events("event: " + eventType + t1 + "data: " + data + t2 + t3) == [Event(eventType, data)]
  {
    var l1 := "event: " + eventType;
    var l2 := "data: " + data;
    assert "event: " + eventType + t1 + "data: " + data + t2 + t3 == l1 + t1 + l2 + t2 + t3;
    BlockLines(l1, l2, t1, t2, t3);
    InterpretBlock(eventType, data);
  }
}

=== FILE: store.dfy ===
/**
 * The session store: Fastly's `simple` cache used as a key/value store of
 * session ids.  A key is live while its entry is in the cache; the value kept
 * is the number of seconds left before the cache drops the entry.
 */
module SessionStore {

  type Store = map<string, nat>

  /** Sessions are inserted with a time-to-live of 3 minutes. */
  const SessionTtlSeconds: nat := 3 * 60

  /** `simple.Get(key)` succeeds. */
  predicate Live(s: Store, key: string) {
    key in s
  }

  /** `simple.GetOrSet(key, ...)`: an absent key gets a fresh entry; a present one is left as it is. */
  function Create(s: Store, key: string): (s': Store)
    ensures Live(s', key)
    ensures key !in s ==> s'[key] == SessionTtlSeconds
    ensures key in s ==> s' == s
    ensures forall k :: k != key ==> (k in s' <==> k in s)
    ensures forall k :: k in s && k != key ==> s'[k] == s[k]
  {
    if key in s then s else s[key := SessionTtlSeconds]
  }

  /** `simple.Purge(key)` that succeeded: the entry is gone, all others are untouched. */
  function Purge(s: Store, key: string): (s': Store)
    ensures !Live(s', key)
    ensures forall k :: k != key ==> (k in s' <==> k in s)
    ensures forall k :: k in s' ==> s'[k] == s[k]
  {
    s - {key}
  }

  /** The passing of `elapsed` seconds: entries whose time-to-live runs out are dropped. */
  function Advance(s: Store, elapsed: nat): (s': Store)
    ensures forall k :: k in s' <==> k in s && s[k] > elapsed
    ensures forall k :: k in s' ==> s'[k] + elapsed == s[k]
  {
    map k | k in s && s[k] > elapsed :: s[k] - elapsed
  }

  /** A new session stays live for exactly its time-to-live, unless purged. */
  lemma CreatedSessionLifetime(s: Store, key: string, elapsed: nat)
    requires key !in s
    ensures Live(Advance(Create(s, key), elapsed), key) <==> elapsed < SessionTtlSeconds
  {
  }

  /** Purging twice is the same as purging once. */
  lemma PurgeIdempotent(s: Store, key: string)
    ensures Purge(Purge(s, key), key) == Purge(s, key)
  {
  }

  /** Waiting `a` then `b` seconds is waiting `a + b` seconds. */
  lemma AdvanceAdds(s: Store, a: nat, b: nat)
    ensures Advance(Advance(s, a), b) == Advance(s, a + b)
  {
    var l := Advance(Advance(s, a), b);
    var r := Advance(s, a + b);
    assert l.Keys == r.Keys;
    assert forall k :: k in l ==> l[k] == r[k];
  }

  /** A purged session does not come back by waiting. */
  lemma PurgedStaysGone(s: Store, key: string, elapsed: nat)
    ensures !Live(Advance(Purge(s, key), elapsed), key)
  {
  }
}

=== FILE: streamable.dfy ===
/**
 * The Streamable HTTP transport of the Model Context Protocol (revision
 * 2025-03-26, Transports): everything under the `/mcp` prefix.
 *
 * POST runs the engine on the body.  The engine's before-any hook checks the
 * `Mcp-Session-Id` header for every method but `initialize`, and writes 400
 * or 404 when the check fails, but the hook cannot stop the engine: the
 * handler still writes the JSON reply with status 200 afterwards.  The
 * after-initialize hook stores a new session and sets the header.  DELETE
 * purges the session; any other method gets a fixed 200 reply.
 */
module Streamable {
  import opened Base
  import opened Http
  import opened External
  import opened SessionStore
  import GoFmt

  const SessionHeader := "Mcp-Session-Id"

  /**
   * `simple.Get(key)` succeeded: the key is in the store and the read did not
   * fail.  Any error from the lookup counts as not found.
   */
  predicate Found(store: Store, key: string, o: Outcomes) {
    Live(store, key) && !o.lookupFails
  }

  /** The before-any hook: the session check every method except `initialize` goes through. */
  function SessionCheck(req: Request, store: Store, o: Outcomes, mcpMethod: McpMethod): (acts: seq<Action>)
    ensures acts == [] <==> mcpMethod == MethodInitialize || (Header(req, SessionHeader) != "" && Found(store, Header(req, SessionHeader), o))
    ensures mcpMethod != MethodInitialize && Header(req, SessionHeader) == "" ==> FirstStatus(acts) == Some(StatusBadRequest) && BodyText(acts) == "Bad request\n"
    ensures (mcpMethod != MethodInitialize && Header(req, SessionHeader) != "" && !Found(store, Header(req, SessionHeader), o))
              ==> (FirstStatus(acts) == Some(StatusNotFound) && BodyText(acts) == "Not found\n")
  {
    var key := Header(req, SessionHeader);
    if mcpMethod == MethodInitialize then []
    else if key == "" then Reply(StatusBadRequest, "Bad request\n")
    else if !Found(store, key, o) then Reply(StatusNotFound, "Not found\n")
    else []
  }

  /** The after-initialize hook: store the new session id and hand it to the client in a header. */
  function CreateSession(store: Store, o: Outcomes): (x: Exchange)
    ensures o.insertError.None? ==> (x.store == Create(store, NewSessionId(o))
                                    && x.actions == [SetHeader(SessionHeader, NewSessionId(o))])
    ensures o.insertError.Some? ==> x.store == store && FirstStatus(x.actions) == Some(StatusInternalServerError)
  {
    var key := NewSessionId(o);
    match o.insertError
    case Some(msg) => Exchange(store, Http.Error(msg, StatusInternalServerError))
    case None => Exchange(Create(store, key), [SetHeader(SessionHeader, key)])
  }

  /** What the hooks the engine fired write, and the store after them. */
  function RunHooks(req: Request, store: Store, hooks: HookTrace, o: Outcomes): (x: Exchange)
    ensures forall k :: k in x.store ==> k in store || k == NewSessionId(o)
    ensures forall k :: k in store ==> k in x.store && x.store[k] == store[k]
  {
    match hooks
    case NoHook => Exchange(store, [])
    case BeforeAny(m) => Exchange(store, SessionCheck(req, store, o, m))
    case Initialized => CreateSession(store, o)
  }

  /** `json.Marshal` of the engine's reply: Go's nil marshals to `null`. */
  function ReplyJson(reply: Option<string>): string {
    match reply
    case None => "null"
    case Some(json) => json
  }

  /** The tail of every POST that read its body: JSON content type, 200, the reply. */
  function JsonReply(reply: Option<string>): (acts: seq<Action>)
    ensures |acts| == 3 && acts[0] == SetHeader("Content-Type", "application/json")
    ensures FirstStatus(acts) == Some(StatusOK) && BodyText(acts) == ReplyJson(reply)
    ensures Sent(acts) == Some(Response(StatusOK, map["Content-Type" := "application/json"], ReplyJson(reply)))
  {
    JsonResponse(StatusOK, ReplyJson(reply))
  }

  /** POST under `/mcp`. */
  function Post(req: Request, store: Store, o: Outcomes): (x: Exchange)
    ensures req.body.None? ==> x == Exchange(store, Reply(StatusBadRequest, ReadFailure))
    ensures req.body.Some? ==> |x.actions| >= 3 && x.actions[|x.actions| - 3..] == JsonReply(o.engine(req.body.value).reply)
    ensures forall k :: k in x.store ==> k in store || k == NewSessionId(o)
    ensures forall k :: k in store ==> k in x.store && x.store[k] == store[k]
  {
    match req.body
    case None => Exchange(store, Reply(StatusBadRequest, ReadFailure))
    case Some(b) =>
      var run := o.engine(b);
      var h := RunHooks(req, store, run.hooks, o);
      var tail := JsonReply(run.reply);
      assert (h.actions + tail)[|h.actions + tail| - |tail|..] == tail;
      Exchange(h.store, h.actions + tail)
  }

  /** DELETE under `/mcp`: a missing header is reported, but the purge is still attempted. */
  function Delete(req: Request, store: Store, o: Outcomes): (x: Exchange)
    ensures var key := Header(req, SessionHeader);
            && (key == "" ==> FirstStatus(x.actions) == Some(StatusBadRequest))
            && (key != "" && o.purgeFails ==> (FirstStatus(x.actions) == Some(StatusMethodNotAllowed)
                                              && BodyText(x.actions) == "Not allowed\n"))
            && (key != "" && !o.purgeFails ==> x.actions == [])
            && (o.purgeFails ==> x.store == store)
            && (!o.purgeFails ==> !Live(x.store, key))
            && (forall k :: k != key ==> (k in x.store <==> k in store))
    ensures forall k :: k in x.store ==> k in store && x.store[k] == store[k]
  {
    var key := Header(req, SessionHeader);
    var missing := if key == "" then Reply(StatusBadRequest, "Bad request\n") else [];
    var refused := Reply(StatusMethodNotAllowed, "Not allowed\n");
    assert key != "" ==> missing + refused == refused;
    if o.purgeFails then Exchange(store, missing + refused)
    else Exchange(Purge(store, key), missing)
  }

  const NotSupported := "sorry - not supported request atm"

  /** Any other method under `/mcp`. */
  function Unsupported(store: Store): (x: Exchange)
    ensures x.store == store
    ensures Sent(x.actions) == Some(Response(StatusOK, map[], NotSupported))
  {
    Exchange(store, Reply(StatusOK, NotSupported))
  }

  /** The `/mcp` branch: dispatch on the method. */
  function Serve(req: Request, store: Store, o: Outcomes): (x: Exchange)
    ensures forall k :: k in store && k != Header(req, SessionHeader) ==> k in x.store && x.store[k] == store[k]
    ensures forall k :: k in x.store ==> k in store || k == NewSessionId(o)
  {
    if req.httpMethod == "POST" then Post(req, store, o)
    else if req.httpMethod == "DELETE" then Delete(req, store, o)
    else Unsupported(store)
  }

  /** The engine's reply with status 200 and the JSON content type, leaving the store as it was. */
  lemma {:induction false} PlainAnswer(req: Request, store: Store, o: Outcomes, b: string)
    requires req.body == Some(b)
    requires RunHooks(req, store, o.engine(b).hooks, o).actions == []
    requires RunHooks(req, store, o.engine(b).hooks, o).store == store
    ensures Post(req, store, o).store == store
    ensures Sent(Post(req, store, o).actions)
         == Some(Response(StatusOK, map["Content-Type" := "application/json"], ReplyJson(o.engine(b).reply)))
  {
    var reply := o.engine(b).reply;
    assert Post(req, store, o).actions == [] + JsonReply(reply);
    assert [] + JsonReply(reply) == JsonReply(reply);
  }

  /** A message the engine never dispatched (unparsable, a notification, an unknown method) is answered without any session check. */
  lemma UndispatchedAnswered(req: Request, store: Store, o: Outcomes, b: string)
    requires req.body == Some(b) && o.engine(b).hooks == NoHook
    ensures Post(req, store, o).store == store
    ensures Sent(Post(req, store, o).actions)
         == Some(Response(StatusOK, map["Content-Type" := "application/json"], ReplyJson(o.engine(b).reply)))
  {
    PlainAnswer(req, store, o, b);
  }

  /** A non-initialize request naming a live session is answered with the engine's reply. */
  lemma LiveSessionAnswered(req: Request, store: Store, o: Outcomes, b: string, m: McpMethod)
    requires req.body == Some(b) && o.engine(b).hooks == BeforeAny(m) && m != MethodInitialize
    requires Header(req, SessionHeader) != "" && Found(store, Header(req, SessionHeader), o)
    ensures Post(req, store, o).store == store
    ensures Sent(Post(req, store, o).actions)
         == Some(Response(StatusOK, map["Content-Type" := "application/json"], ReplyJson(o.engine(b).reply)))
  {
    PlainAnswer(req, store, o, b);
  }

  /** The writes of a POST whose session check failed: the check's writes, then the JSON reply. */
  lemma {:induction false} CheckThenReply(req: Request, store: Store, o: Outcomes, b: string, m: McpMethod)
    requires req.body == Some(b) && o.engine(b).hooks == BeforeAny(m)
    requires SessionCheck(req, store, o, m) != []
    ensures Post(req, store, o).store == store
    ensures FirstStatus(Post(req, store, o).actions) == FirstStatus(SessionCheck(req, store, o, m))
    ensures Sent(Post(req, store, o).actions).Some?
    ensures Sent(Post(req, store, o).actions).value
         == Sent(SessionCheck(req, store, o, m)).value.(body := BodyText(SessionCheck(req, store, o, m)) + ReplyJson(o.engine(b).reply))
  {
    var check := SessionCheck(req, store, o, m);
    var reply := o.engine(b).reply;
    assert check[0].WriteStatus?;
    FirstStatusAppend(check, JsonReply(reply));
    SentAppend(check, JsonReply(reply), map[]);
  }

  /**
   * Without a session header, a non-initialize request gets 400 "Bad request"
   * first, whatever the store holds; the store is not consulted.  The engine
   * has still run, and its reply follows in the body.
   */
  lemma MissingSessionRejected(req: Request, store: Store, o: Outcomes, b: string, m: McpMethod)
    requires req.body == Some(b) && o.engine(b).hooks == BeforeAny(m) && m != MethodInitialize
    requires Header(req, SessionHeader) == ""
    ensures FirstStatus(Post(req, store, o).actions) == Some(StatusBadRequest)
    ensures Post(req, store, o).store == store
    ensures forall other: Store :: Post(req, other, o).actions == Post(req, store, o).actions
    ensures Sent(Post(req, store, o).actions)
         == Some(Response(StatusBadRequest, map[], "Bad request\n" + ReplyJson(o.engine(b).reply)))
  {
    CheckThenReply(req, store, o, b, m);
  }

  /** A non-initialize request naming a session the store does not hold gets 404 "Not found" first. */
  lemma UnknownSessionNotFound(req: Request, store: Store, o: Outcomes, b: string, m: McpMethod)
    requires req.body == Some(b) && o.engine(b).hooks == BeforeAny(m) && m != MethodInitialize
    requires Header(req, SessionHeader) != "" && !Found(store, Header(req, SessionHeader), o)
    ensures FirstStatus(Post(req, store, o).actions) == Some(StatusNotFound)
    ensures Post(req, store, o).store == store
    ensures Sent(Post(req, store, o).actions)
         == Some(Response(StatusNotFound, map[], "Not found\n" + ReplyJson(o.engine(b).reply)))
  {
    CheckThenReply(req, store, o, b, m);
  }

  /**
   * A successful `initialize` skips the session check, stores the new id with
   * a 3-minute time-to-live, and answers 200 with the id in `Mcp-Session-Id`.
   */
  lemma InitializeCreatesSession(req: Request, store: Store, o: Outcomes, b: string)
    requires req.body == Some(b) && o.engine(b).hooks == Initialized
    requires o.insertError.None?
    ensures var id := NewSessionId(o);
            && Live(Post(req, store, o).store, id)
            && (id !in store ==> Post(req, store, o).store == store[id := SessionTtlSeconds])
            && Sent(Post(req, store, o).actions)
               == Some(Response(StatusOK, map[SessionHeader := id, "Content-Type" := "application/json"], ReplyJson(o.engine(b).reply)))
  {
    var id := NewSessionId(o);
    var reply := o.engine(b).reply;
    var acts := Post(req, store, o).actions;
    assert acts == [SetHeader(SessionHeader, id)] + JsonReply(reply);
    assert acts[1..] == JsonReply(reply);
    var h := map[SessionHeader := id];
    var tail := Reply(StatusOK, ReplyJson(reply));
    assert JsonReply(reply)[1..] == tail;
    assert SentFrom(JsonReply(reply), h) == SentFrom(tail, h["Content-Type" := "application/json"]);
  }

  /** When the store refuses the new session, `initialize` is answered 500 and nothing is stored. */
  lemma InitializeInsertFails(req: Request, store: Store, o: Outcomes, b: string)
    requires req.body == Some(b) && o.engine(b).hooks == Initialized
    requires o.insertError.Some?
    ensures Post(req, store, o).store == store
    ensures FirstStatus(Post(req, store, o).actions) == Some(StatusInternalServerError)
  {
    var err := Http.Error(o.insertError.value, StatusInternalServerError);
    FirstStatusAppend(err, JsonReply(o.engine(b).reply));
  }

  /** POST whose session check failed, as the `return` in the hook evidently intends: the request ends with the check's reply. */
  predicate Rejected(req: Request, store: Store, o: Outcomes) {
    && req.body.Some?
    && o.engine(req.body.value).hooks.BeforeAny?
    && SessionCheck(req, store, o, o.engine(req.body.value).hooks.mcpMethod) != []
  }

  function PostGuarded(req: Request, store: Store, o: Outcomes): (x: Exchange)
    ensures x.store == Post(req, store, o).store
    ensures (Rejected(req, store, o) && Header(req, SessionHeader) == "")
              ==> Sent(x.actions) == Some(Response(StatusBadRequest, map[], "Bad request\n"))
    ensures (Rejected(req, store, o) && Header(req, SessionHeader) != "")
              ==> Sent(x.actions) == Some(Response(StatusNotFound, map[], "Not found\n"))
    ensures !Rejected(req, store, o) ==> x == Post(req, store, o)
  {
    if Rejected(req, store, o) then
      Exchange(store, SessionCheck(req, store, o, o.engine(req.body.value).hooks.mcpMethod))
    else Post(req, store, o)
  }

  /** As written, a rejected request still carries the engine's reply: the body is the rejection text followed by the JSON. */
  lemma RejectedPostStillAnswers(req: Request, store: Store, o: Outcomes)
    requires Rejected(req, store, o)
    ensures BodyText(Post(req, store, o).actions)
         == BodyText(PostGuarded(req, store, o).actions) + ReplyJson(o.engine(req.body.value).reply)
  {
    var b := req.body.value;
    CheckThenReply(req, store, o, b, o.engine(b).hooks.mcpMethod);
  }

  /** The reply body as written: `fmt.Fprintf(w, string(eventData))` uses the JSON text as a format string. */
  function ReplyBodyAsWritten(reply: Option<string>): (text: string)
    ensures '%' !in ReplyJson(reply) ==> text == ReplyJson(reply)
  {
    var json := ReplyJson(reply);
    if '%' !in json then GoFmt.PlainFormat(json); GoFmt.Sprintf(json)
    else GoFmt.Sprintf(json)
  }

  /**
   * A reply containing `%"` is not delivered as written: the pair becomes
   * `%!"(MISSING)`.  With `pre` = `{"p":"5` and `post` = `}` the reply
   * `{"p":"5%"}` comes out as `{"p":"5%!"(MISSING)}`.
   */
  lemma PercentReplyMangled(pre: string, post: string)
    requires '%' !in pre && '%' !in post
    ensures ReplyBodyAsWritten(Some(pre + "%\"" + post)) == pre + "%!\"(MISSING)" + post
    ensures ReplyBodyAsWritten(Some(pre + "%\"" + post)) != ReplyJson(Some(pre + "%\"" + post))
  {
    var json := pre + "%\"" + post;
    assert json[|pre|] == '%';
    GoFmt.PercentBeforeQuote(pre, post);
    assert |pre + "%!\"(MISSING)" + post| != |json|;
  }
}

=== FILE: uuid.dfy ===
/**
 * The text of a random session id: `uuid.New().String()`, the canonical
 * 8-4-4-4-12 lower-case hexadecimal form of 16 bytes.  Where the bytes come
 * from (the random source) is outside the model; they are a parameter.
 */
module Uuid {
  import opened Base

  type Byte = x: int | 0 <= x < 256

  type Bytes16 = b: seq<Byte> | |b| == 16 witness seq(16, _ => 0)

  const HexDigits := "0123456789abcdef"

  predicate IsHex(c: char) {
    c in HexDigits
  }

  /** Two lower-case hex digits per byte, high nibble first. */
  function Hex(b: seq<Byte>): (h: string)
    ensures |h| == 2 * |b|
    ensures forall i :: 0 <= i < |h| ==> IsHex(h[i])
  {
    if b == [] then ""
    else [HexDigits[b[0] / 16], HexDigits[b[0] % 16]] + Hex(b[1..])
  }

  /** The canonical text of a UUID. */
  function Text(u: Bytes16): (t: string)
    ensures |t| == 36
    ensures t[8] == '-' && t[13] == '-' && t[18] == '-' && t[23] == '-'
    ensures forall i :: 0 <= i < 36 && i != 8 && i != 13 && i != 18 && i != 23 ==> IsHex(t[i])
    ensures t != "" && NoLineBreak(t)
  {
    Hex(u[..4]) + "-" + Hex(u[4..6]) + "-" + Hex(u[6..8]) + "-" + Hex(u[8..10]) + "-" + Hex(u[10..])
  }
}
